=== FILE: README.md ===
# glommio `BufferedFile`, modelled in Dafny

This project models glommio's `BufferedFile` (`glommio/src/io/buffered_file.rs`).
A `BufferedFile` is a file opened for buffered (page-cache) I/O through the
io_uring reactor. The model has four parts.

- **The file's contents as reads see them** (`SparseFiles`). A logical size, the
  bytes below it, and the set of filesystem clusters that hold storage. A hole
  reads as zero, and a nonzero byte always lies in an allocated cluster. Each
  operation is a pure transition:
  - `write_at` may report a short count;
  - `read_at` stops at the end of the file;
  - `deallocate` punches a hole;
  - `pre_allocate` reserves storage, with or without `keep_size`;
  - `truncate` sets the size.
- **Open flags** (`OpenFlags`). `open_with_options` builds the flag word from
  close-on-exec, the access mode, the creation mode, and the caller's custom
  flags with the access-mode field masked out.
- **The facade** (`BufferedFiles`):
  - opening, with error wrapping, and identity (`is_same` on device and inode);
  - reads and writes whose failures carry the operation, path and descriptor;
  - the forwarded operations, `rename`, `stat` and `file_size`;
  - the consuming `close` and `discard`, and sessions: every call on one
    value from a successful open to its end, with the descriptors the
    process holds.
- **The repository's tests** (`Scenarios`). `random_io` is stated for every
  cluster size. The first write of `write_past_end` is stated for every
  cluster size its guard admits (at least 512), and the rest of it for every
  cluster size of at least 900 (see Findings).

The I/O engine's outcome is an input of every I/O call: a `Completion`, which
is `Done` or `Failed(errno)`. The two synchronous operations, `is_same` and
`discard`, take none. Other inputs are the number of bytes the device accepts
(`room`), the OS's answer to `openat`, and the option lookups
`get_access_mode` and `get_creation_mode`. Nothing is executed; the properties
are proved for all values of these inputs.

Design choices and ambiguities:

- **Short writes.** A write stores `min(|buf|, room)` bytes and reports that
  count. A zero-byte write changes nothing, as with `pwrite(2)`.
- **`pre_allocate` without `keep_size`.** The size becomes the larger of the old
  size and `size`, because `fallocate(2)` never shrinks a file. The doc comment
  only describes the growing case.
- **Shrinking `truncate`.** It frees the clusters that start at or past the new
  size. That is the storage a filesystem can release. How the filesystem
  accounts a partly cut cluster is a modelling choice.
- **Moves.** `close` and `discard` take `self` by value, so Rust rejects
  any later call on that value at compile time. Sessions model this:
  `Step` accepts a call only on an open value, and `RunSession` accepts only call
  sequences in which a consuming call comes last. `Write`, `Read` and the
  other per-call functions take the `BufferedFile` of an open value.
- **A comment in `write_past_end`.** The comment at
  `glommio/src/io/buffered_file.rs:449-450` says the allocated size goes "back
  to 0", but the assertion below it, which the model follows, expects one cluster.

## Model

| member | source | states |
|---|---|---|
| SparseFiles.ReadAt | glommio/src/io/buffered_file.rs:162-187 | a read returns nothing at or past the end of the file; inside it, it returns exactly `min(size, file_size - pos)` bytes, and each is the file's byte at that position (zero in a hole) |
| SparseFiles.WriteAt | glommio/src/io/buffered_file.rs:122-160 | the reported count never exceeds the buffer or what the device takes, and is short only when the device is full; exactly the counted prefix lands at `pos`, no other byte changes, the file grows to the end of the write, and the clusters the bytes fall in become allocated |
| SparseFiles.Deallocate | glommio/src/io/buffered_file.rs:196-207 | the size is unchanged, the range reads as zero and nothing outside it changes; clusters wholly inside the range are unmapped and partly covered ones stay |
| SparseFiles.PreAllocate | glommio/src/io/buffered_file.rs:209-217 | no readable byte changes; with `keep_size` the size stays, without it the size becomes at least `size`; storage for `[0, size)` becomes allocated |
| SparseFiles.Truncate | glommio/src/io/buffered_file.rs:219-225 | the size becomes exactly `size`; the shared prefix is kept and everything past it reads as zero; shrinking frees exactly the allocated clusters starting at or past the new end |
| SparseFiles.Run | glommio/src/io/buffered_file.rs:145-225 | any sequence of writes, hole punches, reservations and truncations keeps the invariant that data never lives in an unallocated cluster |
| SparseFileLemmas.ReadAfterWrite | glommio/src/io/buffered_file.rs:145-187 | the bytes `write_at` reports written read back unchanged, and a write the device takes whole reads back as the whole buffer |
| SparseFileLemmas.WriteSize | glommio/src/io/buffered_file.rs:145-160 | a write inside the file keeps its size; a non-empty write past the end grows the file to the end of the written bytes |
| SparseFileLemmas.ShortWriteThenResume | glommio/src/io/buffered_file.rs:128-130 | after a short write of `n` bytes, writing the rest of the buffer at `pos + n` stores the remaining bytes, and the file equals the one a single whole write gives |
| SparseFileLemmas.SameCountSameWrite | glommio/src/io/buffered_file.rs:128-130 | how much room the device has matters only through the count the write reports |
| SparseFileLemmas.WriteIdempotent | glommio/src/io/buffered_file.rs:145-160 | writing the same buffer at the same place a second time changes nothing and reports the same count |
| SparseFileLemmas.WriteAllocates | glommio/src/io/buffered_file.rs:145-160 | a write never frees storage; the allocated size grows by whole clusters, exactly the newly dirtied ones |
| SparseFileLemmas.DeallocatedRangeReadsZero | glommio/src/io/buffered_file.rs:196-207 | after a hole is punched, a read inside it returns as many bytes as before, all zero |
| SparseFileLemmas.DeallocateShrinksAndIsIdempotent | glommio/src/io/buffered_file.rs:196-207 | punching a hole never increases the allocated size, and punching it again changes nothing |
| SparseFileLemmas.DeallocateOneCluster | glommio/src/io/buffered_file.rs:196-207 | punching exactly one allocated cluster lowers the allocated size by exactly one cluster |
| SparseFileLemmas.PreAllocateReads | glommio/src/io/buffered_file.rs:209-215 | with `keep_size` every read is unchanged; without it the range from the old end to `size` reads as zeros of full length |
| SparseFileLemmas.PreAllocateIdempotent | glommio/src/io/buffered_file.rs:209-217 | reserving the same storage twice is the same as reserving it once |
| SparseFileLemmas.TruncateCutsAndIsIdempotent | glommio/src/io/buffered_file.rs:219-225 | bytes cut by a shrinking truncate read as zero even after growing back, and truncating twice to one size is truncating once |
| SparseFileLemmas.UnwrittenStaysZero | glommio/src/io/buffered_file.rs:196-225 | a position that reads zero and that no later call writes keeps reading zero through any holes, reservations and truncations |
| SparseFileLemmas.NeverWrittenReadsZero | glommio/src/io/buffered_file.rs:162-225 | in a file built from an empty one, any range inside the file that no call wrote reads back whole, all zeros |
| OpenFlags.Compose | glommio/src/io/buffered_file.rs:112-115 | the flag word has close-on-exec, every access bit and every creation bit set; every other bit is the custom flags' bit, except that no access-mode bit comes from the custom flags |
| OpenFlags.ComposeKeepsRequiredBits | glommio/src/io/buffered_file.rs:112-115 | close-on-exec, the access mode and the creation mode are each present in the flags |
| OpenFlags.OpenFlagsFor | glommio/src/io/buffered_file.rs:112-115 | an access-mode error is returned first, then a creation-mode error; flags exist exactly when both lookups succeed, and then they are the composed word |
| OpenFlags.CustomAccessBitsIgnored | glommio/src/io/buffered_file.rs:115 | custom flags that differ only in the access-mode field give the same flag word |
| OpenFlags.AccessModeFromOptionsOnly | glommio/src/io/buffered_file.rs:112-115 | the access-mode field of the flags is the one the options resolved to, whatever the custom flags say, given a creation mode without access bits (no creation flag has any) |
| OpenFlags.CreateAndOpenFlags | glommio/src/io/buffered_file.rs:86-104 | `create` opens write-only with create and truncate, and `open` stays read-only even with custom flags asking for read-write |
| BufferedFiles.IsSame | glommio/src/io/buffered_file.rs:48-80 | two values are the same file exactly when their device and their inode agree |
| BufferedFiles.IsSameExactlyIdentity | glommio/src/io/buffered_file.rs:48-80 | replacing the descriptors and paths of two values never changes whether they are the same file |
| BufferedFiles.IsSameEquivalence | glommio/src/io/buffered_file.rs:48-80 | `is_same` is reflexive, symmetric and transitive |
| BufferedFiles.OpenWithOptions | glommio/src/io/buffered_file.rs:106-120 | `openat` is called exactly when both mode lookups succeed, with the directory, the path, the composed flags and the options' mode; a lookup error comes back unchanged; an OS failure is wrapped with the operation description, the path and no descriptor; success gives a file holding the new descriptor and the path |
| BufferedFiles.TwoOpensAreSame | glommio/src/io/buffered_file.rs:55-73 | two successful opens the OS resolves to one file (the same path twice, or hard links) are `is_same`, with their own descriptors |
| BufferedFiles.Write | glommio/src/io/buffered_file.rs:145-160 | `write_at` succeeds exactly when the engine completes, and then gives the count and state of the file transition; a failure is wrapped as "Writing" with the current path and the descriptor |
| BufferedFiles.Read | glommio/src/io/buffered_file.rs:171-187 | `read_at` succeeds exactly when the engine completes, and then returns the file's window, never longer than asked for; a failure is wrapped as "Reading" with the current path and the descriptor |
| BufferedFiles.Forward | glommio/src/io/buffered_file.rs:205-225 | `deallocate`, `pre_allocate` and `truncate` succeed exactly when the engine completes, and then apply their transition; on failure the error is returned |
| BufferedFiles.Rename | glommio/src/io/buffered_file.rs:227-233 | after a successful rename the file reports the new path; after a failed one it is unchanged; the descriptor and identity never change |
| BufferedFiles.RenameKeepsIdentity | glommio/src/io/buffered_file.rs:227-233 | after two renames the value is still the same file with the same descriptor, and it holds the path of the last rename that succeeded |
| BufferedFiles.StatOf | glommio/src/io/buffered_file.rs:252-256 | `stat` succeeds exactly when the engine completes, and then reports the logical size, the storage held as a whole number of clusters, the cluster size, and the device and inode `is_same` compares; a failure is returned as the error |
| BufferedFiles.FileSize | glommio/src/io/buffered_file.rs:247-250 | `file_size` succeeds exactly when the engine completes, and then agrees with the size `stat` reports |
| BufferedFiles.Close | glommio/src/io/buffered_file.rs:258-261 | `close` consumes the file and releases its descriptor, which the process held, so the process holds one descriptor fewer; the result is `Ok` exactly when the engine completes, and otherwise carries the engine's errno |
| BufferedFiles.Discard | glommio/src/io/buffered_file.rs:269-271 | `discard` consumes the file without releasing its descriptor, and hands the descriptor and the path to the caller |
| BufferedFiles.Begin | glommio/src/io/buffered_file.rs:106-120 | a successful open starts a session on the opened value, with the file's given contents, its descriptor held by the process and nothing released |
| BufferedFiles.Step | glommio/src/io/buffered_file.rs:145-271 | a call is made only on an open value; a successful `rename` gives the value the new path and changes nothing else about it; every other borrowing call leaves the value exactly as it was, path included; a borrowing call keeps the held descriptors and releases nothing; `close` releases the descriptor once and `discard` leaves it held; a completed `write_at`, `deallocate`, `pre_allocate` or `truncate` gives the contents that file transition gives, and every other or failed call leaves the contents unchanged |
| BufferedFiles.RunSession | glommio/src/io/buffered_file.rs:145-271 | over any call sequence the compiler accepts (nothing after a consuming call), the value is still open exactly when no call consumed it, and then has its descriptor and identity; a final `close` released the descriptor exactly once; a final `discard` left it held |
| BufferedFiles.DescriptorReleasedOnlyByClose | glommio/src/io/buffered_file.rs:258-271 | from a successful open through any call sequence, the new descriptor is released at most once, it is no longer held exactly when the value was closed, and after `discard` it is still held |
| BufferedFiles.SessionFollowsTrace | glommio/src/io/buffered_file.rs:145-225 | over any call sequence on one value, the contents are exactly what the completed writes, hole punches, reservations and truncations make of the starting contents, in order; everything else leaves them alone |
| BufferedFiles.SessionPathIsLastRename | glommio/src/io/buffered_file.rs:145-233 | over any call sequence on one value, a value still open holds the path the last successful `rename` set, or its starting path if none succeeded, so the errors of `write_at` and `read_at` name that path |
| Scenarios.RandomIo | glommio/src/io/buffered_file.rs:335-367 | a writer from `create` and a reader from `open` are the same file; six bytes written at 0 are reported in full and read back, and a six-byte read at 3 returns the last three bytes |
| Scenarios.FileOpenNonexistent | glommio/src/io/buffered_file.rs:328-333 | opening a missing file with `open` asks for no creation, so nothing is created, and fails with the OS error wrapped with the path and no descriptor |
| Scenarios.FirstWriteShape | glommio/src/io/buffered_file.rs:375-388 | for every cluster size the guard admits, the write two clusters in reports 7 bytes, gives size `2 * cluster_size + 7`, and allocates cluster 2 only |
| Scenarios.ScenarioShape | glommio/src/io/buffered_file.rs:380-451 | in `write_past_end`, the write two clusters in allocates cluster 2 only; the write at 513 adds cluster 0; punching the first cluster leaves cluster 2 |
| Scenarios.WritePastEndGrows | glommio/src/io/buffered_file.rs:377-402 | an empty file reads nothing; seven bytes two clusters in are reported in full, give size `2 * cluster_size + 7` and one allocated cluster; the first cluster reads as zeros and a 40-byte read returns the 7 bytes |
| Scenarios.WriteIntoHole | glommio/src/io/buffered_file.rs:404-443 | 387 bytes written at 513 are reported in full and keep the size; two clusters are allocated; the holes before and after read as zeros of full length, and the written bytes read back |
| Scenarios.PunchFirstCluster | glommio/src/io/buffered_file.rs:445-461 | punching the first cluster keeps the size, leaves one allocated cluster, and that cluster reads as zeros |
| Scenarios.GuardAsWrittenAdmitsUnderflow | glommio/src/io/buffered_file.rs:375 | the test's guard admits a 512-byte cluster, for which the length of the read at 900 underflows |
| Scenarios.GuardAsWrittenOverAllocates | glommio/src/io/buffered_file.rs:404-414 | the guard also admits a 600-byte cluster, for which the write at 513 spills into cluster 1 and three clusters end up allocated, where the test asserts two |
| Scenarios.GuardIntendedSuffices | glommio/src/io/buffered_file.rs:429-443 | once the cluster size is at least 900, the read length at 900 is `2 * cluster_size - 900` and that whole range reads as zeros |

## Left out

- The reactor and io_uring are left out: submission, `collect_rw`, and the panic of `reactor.upgrade().unwrap()` when the reactor is gone. The engine's answer is an input.
- The scheduler hint passed to `read_buffered` and the `ReadResult` buffer type are left out. A read's result is the byte sequence it holds.
- The error text of forwarded operations is left out. `deallocate`, `pre_allocate`, `truncate`, `rename`, `file_size`, `stat` and `close` delegate to `GlommioFile`, which is not part of this model, so their failures are modelled as a plain `IoError(errno)`.
- The filesystem namespace is left out: path lookup, the on-disk effect of `rename`, and `remove`. The OS's answer to `openat` is an input, so the `file_create_close` and `file_open` tests, and the "file still absent" check of `file_open_nonexistent`, are covered only through the absence of `O_CREAT`. `rename` is modelled only for the path the value holds.
- `fdatasync` is left out, because the model does not distinguish cached from durable data.
- The I/O statistics counters (files opened and closed, buffered reads and writes) are left out.
- `AsRawFd`, `FromRawFd` and `path()` are left out. They are field accesses, or a constructor from a raw descriptor.
- Integer widths are left out. Positions and sizes are unbounded naturals, so the `u64` and `usize` limits and `EFBIG` are not modelled. Flags and modes are 32-bit words, as `c_int` is. The one width that matters to the tests, the `u32` subtraction of `write_past_end`, is written out.
- Kernel-level rejections are left out as separate cases. Examples are `EINVAL` for a zero-length `fallocate` and unsupported hole punching. They are covered by the `Failed(errno)` completion.
- The mode lookups are inputs. `get_access_mode` and `get_creation_mode` belong to `OpenOptions`, which is not part of this model. So are its `read`, `write`, `create` and `truncate` settings. The modes `create` and `open` resolve to are assumed to be Linux's write-only with `O_CREAT | O_TRUNC` and read-only with no creation flag; `OpenFlags.CreateAndOpenFlags`, `Scenarios.RandomIo` and `Scenarios.FileOpenNonexistent` use those values.
- Scenarios.RandomIo: the second read at 0 is not stated separately, because a read of an unchanged state is a function of that state and returns the same bytes.

## Findings

| source | as written | input that shows it | evidently intended | confidence | as-written member | corrected member |
|---|---|---|---|---|---|---|
| glommio/src/io/buffered_file.rs:375 | `write_past_end` accepts any cluster size of at least 512, then reads `(cluster_size - 900) + cluster_size` bytes at 900 in `u32` | cluster size 512: `512 - 900` underflows (a panic in a debug build); cluster size 600: the write at 513 also dirties cluster 1, so three clusters are allocated and the assertion at line 414 fails | the scenario needs a cluster size of at least 900, so that the 387 bytes at 513 lie in the first cluster and the tail length is `2 * cluster_size - 900` | not executed | Scenarios.GuardAsWrittenAdmitsUnderflow, Scenarios.GuardAsWrittenOverAllocates | Scenarios.GuardIntendedSuffices |

=== FILE: buffered_file.dfy ===
/**
  The `BufferedFile` facade: a descriptor, the path it was opened with and
  the identity of the file behind it. Opening computes the flags and wraps
  a failure with its context; reads and writes go to the file's contents
  and wrap an engine failure with the operation, path and descriptor; the
  remaining operations are forwarded; `close` and `discard` consume the
  value.
 */
module BufferedFiles {
  import opened Common
  import opened SparseFiles
  import opened OpenFlags

  /** What makes two descriptors the same file: the device and the inode. */
  datatype FileId = FileId(device: nat, inode: nat)

  /** An open buffered file: its descriptor, its path if any, and its identity. */
  datatype BufferedFile = BufferedFile(fd: Fd, path: Option<Path>, id: FileId)

  // ---------------------------------------------------------------- is_same

  /**
    `is_same`: the two values name one file of one filesystem, i.e. they
    agree on the device and on the inode; their descriptors and paths do not
    enter into it.
   */
  predicate IsSame(a: BufferedFile, b: BufferedFile): (same: bool)
    ensures same <==> a.id.device == b.id.device && a.id.inode == b.id.inode
  {
    a.id == b.id
  }

  /**
    `is_same` looks at the identity and at nothing else: replacing the
    descriptors and paths of the two values never changes the answer.
   */
  lemma IsSameExactlyIdentity(a: BufferedFile, b: BufferedFile, fa: Fd, fb: Fd, pa: Option<Path>, pb: Option<Path>)
    ensures IsSame(a.(fd := fa, path := pa), b.(fd := fb, path := pb)) == IsSame(a, b)
  {
  }

  /** `is_same` is an equivalence: reflexive, symmetric and transitive. */
  lemma IsSameEquivalence(a: BufferedFile, b: BufferedFile, c: BufferedFile)
    ensures IsSame(a, a)
    ensures IsSame(a, b) == IsSame(b, a)
    ensures IsSame(a, b) && IsSame(b, c) ==> IsSame(a, c)
  {
  }

  // ----------------------------------------------------------------- opening

  /**
    The parts of `OpenOptions` that `open_with_options` reads itself: the
    raw extra flags and the permission bits for a created file. The access
    and creation modes the options resolve to are inputs of the open.
   */
  datatype OpenOptions = OpenOptions(customFlags: bv32, mode: bv32)

  /** The `openat(2)` call `open_with_options` makes. */
  datatype OpenAt = OpenAt(dir: Fd, path: Path, flags: bv32, mode: bv32)

  /** What the OS answered: a descriptor on a file, or an errno. */
  datatype OsOpen = Opened(fd: Fd, id: FileId) | OpenFailed(errno: int)

  /** The outcome of `open_with_options`: the system call made, if any, and the result. */
  datatype Opening = Opening(call: Option<OpenAt>, result: Result<BufferedFile>)

  /**
    `open_with_options(dir, path, opdesc, opts)`. A failing access- or
    creation-mode lookup returns its error before any system call; otherwise
    `openat` is called with the composed flags and the options' mode. An OS
    failure is wrapped with `opdesc` and the path, and no descriptor since
    none was obtained; success gives a value holding the new descriptor and
    the path.
   */
  function OpenWithOptions(dir: Fd, path: Path, opdesc: string, opts: OpenOptions,
                           accessMode: Result<bv32>, creationMode: Result<bv32>, os: OsOpen): (r: Opening)
    ensures r.call.Some? <==> accessMode.Ok? && creationMode.Ok?
    ensures accessMode.Err? ==> r.result == Err(accessMode.error)
    ensures accessMode.Ok? && creationMode.Err? ==> r.result == Err(creationMode.error)
    ensures r.call.Some? ==>
              && r.call.value.dir == dir && r.call.value.path == path && r.call.value.mode == opts.mode
              && r.call.value.flags == Compose(accessMode.value, creationMode.value, opts.customFlags)
    ensures r.call.Some? && os.OpenFailed? ==>
              r.result == Err(EnhancedIoError(os.errno, opdesc, Some(path), None))
    ensures r.call.Some? && os.Opened? ==>
              r.result == Ok(BufferedFile(os.fd, Some(path), os.id))
  {
    match OpenFlagsFor(accessMode, creationMode, opts.customFlags)
    case Err(e) => Opening(None, Err(e))
    case Ok(flags) =>
      var call := OpenAt(dir, path, flags, opts.mode);
      match os
      case OpenFailed(errno) => Opening(Some(call), Err(EnhancedIoError(errno, opdesc, Some(path), None)))
      case Opened(fd, id) => Opening(Some(call), Ok(BufferedFile(fd, Some(path), id)))
  }

  /**
    Two successful opens that the OS resolves to the same file (the same
    path opened twice, or two hard links) are the same file, even though
    their descriptors differ.
   */
  lemma TwoOpensAreSame(dir: Fd, p1: Path, p2: Path, d1: string, d2: string, o1: OpenOptions, o2: OpenOptions,
                        a1: bv32, c1: bv32, a2: bv32, c2: bv32, fd1: Fd, fd2: Fd, id: FileId)
    ensures var r1 := OpenWithOptions(dir, p1, d1, o1, Ok(a1), Ok(c1), Opened(fd1, id)).result;
            var r2 := OpenWithOptions(dir, p2, d2, o2, Ok(a2), Ok(c2), Opened(fd2, id)).result;
            r1.Ok? && r2.Ok? && IsSame(r1.value, r2.value) && r1.value.fd == fd1 && r2.value.fd == fd2
  {
  }

  // ------------------------------------------------------------ read / write

  /**
    `write_at(buf, pos)` on `contents`, the file's state. When the engine
    completes, the result is the transition and the count `WriteAt` gives
    (possibly short, still a success); when it fails, the error names the
    operation "Writing", the current path and the descriptor, and the caller
    keeps the old state.
   */
  function Write(h: BufferedFile, contents: SparseFile, buf: seq<uint8>, pos: nat, room: nat,
                 c: Completion): (r: Result<Written>)
    requires Valid(contents)
    ensures r.Ok? <==> c.Done?
    ensures r.Ok? ==> r.value == WriteAt(contents, buf, pos, room) && r.value.count <= |buf|
    ensures c.Failed? ==> r == Err(EnhancedIoError(c.errno, "Writing", h.path, Some(h.fd)))
  {
    match c
    case Done => Ok(WriteAt(contents, buf, pos, room))
    case Failed(errno) => Err(EnhancedIoError(errno, "Writing", h.path, Some(h.fd)))
  }

  /**
    `read_at(pos, size)`: the window the read filled (never longer than
    asked for, clipped at end of file), or, when the engine fails, an error
    naming "Reading", the current path and the descriptor.
   */
  function Read(h: BufferedFile, contents: SparseFile, pos: nat, size: nat, c: Completion): (r: Result<seq<uint8>>)
    ensures r.Ok? <==> c.Done?
    ensures r.Ok? ==> r.value == ReadAt(contents, pos, size) && |r.value| <= size
    ensures c.Failed? ==> r == Err(EnhancedIoError(c.errno, "Reading", h.path, Some(h.fd)))
  {
    match c
    case Done => Ok(ReadAt(contents, pos, size))
    case Failed(errno) => Err(EnhancedIoError(errno, "Reading", h.path, Some(h.fd)))
  }

  // ---------------------------------------------------- forwarded operations

  /**
    `deallocate`, `pre_allocate` and `truncate` forward to the underlying
    handle: on completion the file takes the step `op` describes, on
    failure the error is returned and the state is unchanged.
   */
  function Forward(contents: SparseFile, op: Op, c: Completion): (r: Result<SparseFile>)
    requires Valid(contents)
    requires !op.WriteOp?
    ensures r.Ok? <==> c.Done?
    ensures r.Ok? ==> Valid(r.value) && r.value == Apply(contents, op)
    ensures c.Failed? ==> r == Err(IoError(c.errno))
  {
    match c
    case Done => Ok(Apply(contents, op))
    case Failed(errno) => Err(IoError(errno))
  }

  /**
    `rename(new_path)`: on success the value holds the new path; on failure
    it keeps the old one. The descriptor and identity never change.
   */
  function Rename(h: BufferedFile, newPath: Path, c: Completion): (r: (BufferedFile, Result<()>))
    ensures r.0.fd == h.fd && r.0.id == h.id && IsSame(r.0, h)
    ensures c.Done? ==> r.0.path == Some(newPath) && r.1 == Ok(())
    ensures c.Failed? ==> r.0 == h && r.1 == Err(IoError(c.errno))
  {
    match c
    case Done => (h.(path := Some(newPath)), Ok(()))
    case Failed(errno) => (h, Err(IoError(errno)))
  }

  /**
    Renames compose: after two renames the value is still the same file
    with the same descriptor, and its path is the one the last successful
    rename set (the original one if neither succeeded).
   */
  lemma RenameKeepsIdentity(h: BufferedFile, p: Path, q: Path, c1: Completion, c2: Completion)
    ensures var r := Rename(Rename(h, p, c1).0, q, c2).0;
            && IsSame(r, h) && r.fd == h.fd
            && r.path == (if c2.Done? then Some(q) else if c1.Done? then Some(p) else h.path)
  {
  }

  /** The `Stat` value: sizes from the contents, identity from the value. */
  datatype Stat = Stat(fileSize: nat, allocatedFileSize: nat, fsClusterSize: nat, device: nat, inode: nat)

  /**
    `stat()`: on completion, the logical size, the storage held (a whole
    number of clusters), the cluster size and the identity `is_same`
    compares; on failure the error.
   */
  function StatOf(h: BufferedFile, contents: SparseFile, c: Completion): (r: Result<Stat>)
    ensures r.Ok? <==> c.Done?
    ensures r.Ok? ==> && r.value.fileSize == Size(contents)
                      && r.value.allocatedFileSize == |contents.clusters| * r.value.fsClusterSize
                      && r.value.fsClusterSize == contents.clusterSize
                      && FileId(r.value.device, r.value.inode) == h.id
    ensures c.Failed? ==> r == Err(IoError(c.errno))
  {
    match c
    case Done => Ok(Stat(Size(contents), AllocatedSize(contents), contents.clusterSize, h.id.device, h.id.inode))
    case Failed(errno) => Err(IoError(errno))
  }

  /**
    `file_size()`: on completion the logical size, the same number a
    completed `stat` reports as `file_size`; on failure the error.
   */
  function FileSize(h: BufferedFile, contents: SparseFile, c: Completion): (r: Result<nat>)
    ensures r.Ok? <==> c.Done?
    ensures r.Ok? ==> r.value == StatOf(h, contents, Done).value.fileSize && r.value == |contents.content|
    ensures c.Failed? ==> r == Err(IoError(c.errno))
  {
    if c.Done? then Ok(Size(contents)) else Err(IoError(c.errno))
  }

  // ---------------------------------------------------------------- lifecycle

  /**
    Where a value is in its life. `close` and `discard` take the value by
    move, so after either there is nothing left to call anything on.
   */
  datatype Lifecycle = Open(file: BufferedFile) | Closed | Discarded

  /** The outcome of `close`: the new state, the process's open descriptors, and the result. */
  datatype Closing = Closing(state: Lifecycle, fds: set<Fd>, result: Result<()>)

  /**
    `close(self)`: the value is gone and its descriptor, which the process
    holds, is released (it leaves the held set even when `close(2)`
    reports an error); the result reports the engine's outcome.
   */
  function Close(l: Lifecycle, fds: set<Fd>, c: Completion): (r: Closing)
    requires l.Open? && l.file.fd in fds
    ensures r.state == Closed
    ensures l.file.fd !in r.fds && r.fds + {l.file.fd} == fds && |r.fds| + 1 == |fds|
    ensures r.result.Ok? <==> c.Done?
    ensures c.Failed? ==> r.result == Err(IoError(c.errno))
  {
    Closing(Closed, fds - {l.file.fd}, if c.Done? then Ok(()) else Err(IoError(c.errno)))
  }

  /** The outcome of `discard`: the new state, the open descriptors, and what was handed back. */
  datatype Discarding = Discarding(state: Lifecycle, fds: set<Fd>, fd: Option<Fd>, path: Option<Path>)

  /**
    `discard(self)`: the value is gone but its descriptor is not released;
    the descriptor and the path are handed to the caller, the new owner.
   */
  function Discard(l: Lifecycle, fds: set<Fd>): (r: Discarding)
    requires l.Open?
    ensures r.state == Discarded
    ensures r.fds == fds
    ensures r.fd == Some(l.file.fd) && r.path == l.file.path
  {
    Discarding(Discarded, fds, Some(l.file.fd), l.file.path)
  }

  // ----------------------------------------------------------------- sessions

  /**
    One value's life together with the file's contents, the descriptors the
    process holds, and how many times a descriptor was released.
   */
  datatype Session = Session(life: Lifecycle, contents: SparseFile, fds: set<Fd>, releases: nat)

  /** The session invariant: the contents are well formed and an open value's descriptor is held. */
  predicate Held(s: Session) {
    && Valid(s.contents)
    && (s.life.Open? ==> s.life.file.fd in s.fds)
  }

  /** A session that starts with a successful open: the new descriptor is held. */
  function Begin(o: Opening, contents: SparseFile, fds: set<Fd>): (s: Session)
    requires o.result.Ok? && Valid(contents)
    ensures Held(s) && s.life == Open(o.result.value) && s.releases == 0
    ensures s.fds == fds + {o.result.value.fd} && s.contents == contents
  {
    Session(Open(o.result.value), contents, fds + {o.result.value.fd}, 0)
  }

  /** A method call on an open value. */
  datatype Call =
    | WriteCall(buf: seq<uint8>, pos: nat, room: nat, c: Completion)
    | ReadCall(pos: nat, size: nat, c: Completion)
    | PunchCall(offset: nat, len: nat, c: Completion)
    | ReserveCall(size: nat, keepSize: bool, c: Completion)
    | TruncateCall(size: nat, c: Completion)
    | RenameCall(newPath: Path, c: Completion)
    | StatCall(c: Completion)
    | FileSizeCall(c: Completion)
    | CloseCall(c: Completion)
    | DiscardCall

  /** `close` and `discard` take `self` by value; every other call borrows it. */
  predicate Consumes(call: Call) {
    call.CloseCall? || call.DiscardCall?
  }

  /**
    The transition a call makes to the file's contents: a completed write,
    hole punch, reservation or truncation makes its step; every other call,
    and every failed one, leaves the contents alone.
   */
  function Effect(call: Call): Option<Op> {
    match call
    case WriteCall(buf, pos, room, Done) => Some(WriteOp(buf, pos, room))
    case PunchCall(offset, len, Done) => Some(Punch(offset, len))
    case ReserveCall(size, keepSize, Done) => Some(Reserve(size, keepSize))
    case TruncateCall(size, Done) => Some(SetSize(size))
    case _ => None
  }

  /**
    The contents transitions of `calls`, in order: each one is the effect
    of some call in `calls`, and there is one per completed mutating call.
   */
  function Effects(calls: seq<Call>): (ops: seq<Op>)
    ensures |ops| <= |calls|
    ensures forall i | 0 <= i < |ops| :: exists j | 0 <= j < |calls| :: Effect(calls[j]) == Some(ops[i])
    ensures (forall j | 0 <= j < |calls| :: Effect(calls[j]).None?) <==> ops == []
    decreases |calls|
  {
    if calls == [] then []
    else (if Effect(calls[0]).Some? then [Effect(calls[0]).value] else []) + Effects(calls[1..])
  }

  /** The contents after a forwarded operation: its transition on success, unchanged on failure. */
  function Settle(contents: SparseFile, r: Result<SparseFile>): (f: SparseFile)
    requires Valid(contents) && (r.Ok? ==> Valid(r.value))
    ensures Valid(f)
  {
    if r.Ok? then r.value else contents
  }

  /**
    One call on an open value. A borrowing call keeps the value open with
    its descriptor and identity and releases nothing; `close` releases the
    descriptor once and `discard` leaves it held.
   */
  function Step(s: Session, call: Call): (r: Session)
    requires Held(s) && s.life.Open?
    ensures Held(r) && r.contents.clusterSize == s.contents.clusterSize
    ensures !Consumes(call) ==>
              && r.life.Open? && r.life.file.fd == s.life.file.fd && r.life.file.id == s.life.file.id
              && r.fds == s.fds && r.releases == s.releases
    ensures call.CloseCall? ==>
              r.life == Closed && r.fds == s.fds - {s.life.file.fd} && r.releases == s.releases + 1
    ensures call.DiscardCall? ==>
              r.life == Discarded && r.fds == s.fds && r.releases == s.releases
    ensures call.RenameCall? && call.c.Done? ==> r.life == Open(s.life.file.(path := Some(call.newPath)))
    ensures !Consumes(call) && !(call.RenameCall? && call.c.Done?) ==> r.life == s.life
    ensures call.WriteCall? && call.c.Done? ==>
              r.contents == WriteAt(s.contents, call.buf, call.pos, call.room).file
    ensures call.PunchCall? && call.c.Done? ==> r.contents == Deallocate(s.contents, call.offset, call.len)
    ensures call.ReserveCall? && call.c.Done? ==> r.contents == PreAllocate(s.contents, call.size, call.keepSize)
    ensures call.TruncateCall? && call.c.Done? ==> r.contents == Truncate(s.contents, call.size)
    ensures Effect(call).None? ==> r.contents == s.contents
  {
    var h := s.life.file;
    match call
    case WriteCall(buf, pos, room, c) =>
      var w := Write(h, s.contents, buf, pos, room, c);
      if w.Ok? then s.(contents := w.value.file) else s
    case ReadCall(_, _, _) => s
    case PunchCall(offset, len, c) => s.(contents := Settle(s.contents, Forward(s.contents, Punch(offset, len), c)))
    case ReserveCall(size, keepSize, c) =>
      s.(contents := Settle(s.contents, Forward(s.contents, Reserve(size, keepSize), c)))
    case TruncateCall(size, c) => s.(contents := Settle(s.contents, Forward(s.contents, SetSize(size), c)))
    case RenameCall(newPath, c) => s.(life := Open(Rename(h, newPath, c).0))
    case StatCall(_) => s
    case FileSizeCall(_) => s
    case CloseCall(c) =>
      var cl := Close(s.life, s.fds, c);
      Session(cl.state, s.contents, cl.fds, s.releases + 1)
    case DiscardCall =>
      var d := Discard(s.life, s.fds);
      Session(d.state, s.contents, d.fds, s.releases)
  }

  /**
    The call sequences the compiler accepts on one value: once `close` or
    `discard` has moved it, nothing more can be called on it.
   */
  predicate MovedLast(calls: seq<Call>) {
    forall i | 0 <= i < |calls| - 1 :: !Consumes(calls[i])
  }

  /** What remains after a borrowing call is again a sequence the compiler accepts. */
  lemma MovedLastRest(calls: seq<Call>)
    requires calls != [] && MovedLast(calls)
    ensures MovedLast(calls[1..])
  {
    forall i | 0 <= i < |calls[1..]| - 1
      ensures !Consumes(calls[1..][i])
    {
      assert calls[1..][i] == calls[i + 1];
    }
  }

  /**
    The path a value holds after `calls` when it started with `p`: the one
    the last successful `rename` set, or `p` if no rename succeeded.
   */
  function LastRenamed(p: Option<Path>, calls: seq<Call>): Option<Path>
    decreases |calls|
  {
    if calls == [] then p
    else
      var last := calls[|calls| - 1];
      if last.RenameCall? && last.c.Done? then Some(last.newPath) else LastRenamed(p, calls[..|calls| - 1])
  }

  /** `LastRenamed` read from the front: the first call settles the path the rest start from. */
  lemma {:induction false} LastRenamedFirst(p: Option<Path>, call: Call, rest: seq<Call>)
    ensures LastRenamed(p, [call] + rest)
            == LastRenamed(if call.RenameCall? && call.c.Done? then Some(call.newPath) else p, rest)
    decreases |rest|
  {
    var calls := [call] + rest;
    if rest != [] {
      assert calls[..|calls| - 1] == [call] + rest[..|rest| - 1];
      assert calls[|calls| - 1] == rest[|rest| - 1];
      LastRenamedFirst(p, call, rest[..|rest| - 1]);
    }
  }

  /**
    The session after `calls`, in order, on an open value. It is still open
    exactly when no call consumed it; then it has the same descriptor and
    identity and nothing was released. A final `close` released the
    descriptor exactly once; a final `discard` left it held.
   */
  function RunSession(s: Session, calls: seq<Call>): (r: Session)
    requires Held(s) && s.life.Open? && MovedLast(calls)
    ensures Held(r)
    ensures r.life.Open? <==> calls == [] || !Consumes(calls[|calls| - 1])
    ensures r.life.Open? ==>
              && r.life.file.fd == s.life.file.fd && r.life.file.id == s.life.file.id
              && r.fds == s.fds && r.releases == s.releases
    ensures calls != [] && calls[|calls| - 1].CloseCall? ==>
              r.life == Closed && r.fds == s.fds - {s.life.file.fd} && r.releases == s.releases + 1
    ensures calls != [] && calls[|calls| - 1].DiscardCall? ==>
              r.life == Discarded && r.fds == s.fds && r.releases == s.releases
    decreases |calls|
  {
    if calls == [] then s
    else if Consumes(calls[0]) then
      assert |calls| == 1;
      Step(s, calls[0])
    else
      MovedLastRest(calls);
      RunSession(Step(s, calls[0]), calls[1..])
  }

  /**
    From a successful open to the end of any call sequence, the descriptor
    the OS handed out is released at most once: it is no longer held
    exactly when the value was closed, and then the process holds what it
    held before the open; otherwise the descriptor is still held (by the
    open value, or by whoever `discard` handed it to).
   */
  lemma {:induction false} DescriptorReleasedOnlyByClose(dir: Fd, path: Path, opdesc: string, opts: OpenOptions,
                                                       access: bv32, creation: bv32, fd: Fd, id: FileId,
                                                       contents: SparseFile, fds: set<Fd>, calls: seq<Call>)
    requires Valid(contents) && MovedLast(calls)
    requires fd !in fds
    ensures var o := OpenWithOptions(dir, path, opdesc, opts, Ok(access), Ok(creation), Opened(fd, id));
            var r := RunSession(Begin(o, contents, fds), calls);
            && r.releases <= 1
            && (fd !in r.fds <==> r.life.Closed?)
            && (r.life.Closed? ==> r.fds == fds && r.releases == 1)
            && (!r.life.Closed? ==> r.fds == fds + {fd} && r.releases == 0)
  {
    var o := OpenWithOptions(dir, path, opdesc, opts, Ok(access), Ok(creation), Opened(fd, id));
    var s := Begin(o, contents, fds);
    assert s.life.file.fd == fd;
    assert fds + {fd} - {fd} == fds;
  }

  /**
    A session's contents are the sparse file's own trace: what the completed
    writes, hole punches, reservations and truncations make of the starting
    contents, in order; reads, renames, stats, failed calls and the final
    `close` or `discard` change nothing.
   */
  lemma {:induction false} SessionFollowsTrace(s: Session, calls: seq<Call>)
    requires Held(s) && s.life.Open? && MovedLast(calls)
    ensures RunSession(s, calls).contents == SparseFiles.Run(s.contents, Effects(calls))
    decreases |calls|
  {
    if calls == [] {
    } else if Consumes(calls[0]) {
      assert |calls| == 1 && calls[1..] == [];
      assert Effects(calls) == [];
    } else {
      var t := Step(s, calls[0]);
      MovedLastRest(calls);
      SessionFollowsTrace(t, calls[1..]);
      match Effect(calls[0])
      case None =>
        assert Effects(calls) == Effects(calls[1..]);
      case Some(op) =>
        var ops := Effects(calls);
        assert ops == [op] + Effects(calls[1..]);
        assert ops[1..] == Effects(calls[1..]);
        assert t.contents == Apply(s.contents, op);
    }
  }

  /**
    A value still open after `calls` holds the path the last successful
    `rename` set, or its starting path if none succeeded: reads, writes and
    the other calls never change it, so their errors name that path.
   */
  lemma {:induction false} SessionPathIsLastRename(s: Session, calls: seq<Call>)
    requires Held(s) && s.life.Open? && MovedLast(calls)
    ensures RunSession(s, calls).life.Open? ==>
              RunSession(s, calls).life.file.path == LastRenamed(s.life.file.path, calls)
    decreases |calls|
  {
    if calls == [] {
    } else if Consumes(calls[0]) {
      assert |calls| == 1;
    } else {
      var t := Step(s, calls[0]);
      MovedLastRest(calls);
      SessionPathIsLastRename(t, calls[1..]);
      LastRenamedFirst(s.life.file.path, calls[0], calls[1..]);
      assert [calls[0]] + calls[1..] == calls;
    }
  }
}

=== FILE: common.dfy ===
/**
  Shared vocabulary of the buffered-file model: bytes, the optional and
  fallible result types, the crate's error value and the completion an I/O
  request reports.
 */
module Common {

  /** A byte of file data (Rust `u8`). */
  newtype uint8 = x: int | 0 <= x < 256

  /** A raw OS file descriptor (Rust `RawFd`). */
  type Fd = int

  /** A file-system path; no normalisation is modelled. */
  type Path = string

  datatype Option<+T> = None | Some(value: T)

  /**
    The crate's error value. `IoError` is an OS error propagated unchanged
    (what `?` produces from a `std::io::Error`); `EnhancedIoError` is the
    same cause wrapped with the operation that failed, the file's path and
    its descriptor, when known.
   */
  datatype Error =
    | IoError(errno: int)
    | EnhancedIoError(errno: int, op: string, path: Option<Path>, fd: Option<Fd>)

  /** The crate's `Result<T, ()>`: a value, or an `Error`. */
  datatype Result<+T> = Ok(value: T) | Err(error: Error)

  /**
    How the I/O engine reports a submitted request: it completed, or the
    kernel failed it with an errno. The engine's choice is an input of the
    model, never something the model decides.
   */
  datatype Completion = Done | Failed(errno: int)

  function Min(a: nat, b: nat): nat { if a <= b then a else b }

  function Max(a: nat, b: nat): nat { if a >= b then a else b }
}

=== FILE: open_flags.dfy ===
/**
  The flags `open_with_options` passes to `openat(2)`: close-on-exec, the
  access mode and the creation mode the options resolve to, and the
  caller's custom flags with the access-mode bits masked out. Flags are
  Rust `libc::c_int` values, modelled as 32-bit vectors; the constants are
  Linux's.
 */
module OpenFlags {
  import opened Common

  /** The access-mode field of the flags (`O_RDONLY`, `O_WRONLY` or `O_RDWR`). */
  const O_ACCMODE: bv32 := 0x3
  const O_RDONLY: bv32 := 0x0
  const O_WRONLY: bv32 := 0x1
  const O_RDWR: bv32 := 0x2
  const O_CREAT: bv32 := 0x40
  const O_TRUNC: bv32 := 0x200
  const O_CLOEXEC: bv32 := 0x80000

  /**
    The flag word for an access mode, a creation mode and custom flags. It
    has close-on-exec, every access bit and every creation bit set; every
    other bit is the custom flags' bit, except that custom flags never
    contribute an access-mode bit.
   */
  function Compose(access: bv32, creation: bv32, custom: bv32): (flags: bv32)
    ensures flags & (O_CLOEXEC | access | creation) == O_CLOEXEC | access | creation
    ensures flags & !(O_CLOEXEC | access | creation) == custom & !O_ACCMODE & !(O_CLOEXEC | access | creation)
  {
    O_CLOEXEC | access | creation | (custom & !O_ACCMODE)
  }

  /** Each required part is present in the flags on its own. */
  lemma ComposeKeepsRequiredBits(access: bv32, creation: bv32, custom: bv32)
    ensures Compose(access, creation, custom) & O_CLOEXEC == O_CLOEXEC
    ensures Compose(access, creation, custom) & access == access
    ensures Compose(access, creation, custom) & creation == creation
  {
  }

  /**
    The flag computation of `open_with_options`, with the two fallible
    option lookups as inputs: the access mode is asked first, so its error
    wins; a creation-mode error comes next; otherwise the composed flags.
   */
  function OpenFlagsFor(access: Result<bv32>, creation: Result<bv32>, custom: bv32): (r: Result<bv32>)
    ensures access.Err? ==> r == Err(access.error)
    ensures access.Ok? && creation.Err? ==> r == Err(creation.error)
    ensures r.Ok? <==> access.Ok? && creation.Ok?
    ensures r.Ok? ==> r.value == Compose(access.value, creation.value, custom)
  {
    match access
    case Err(e) => Err(e)
    case Ok(a) =>
      match creation
      case Err(e) => Err(e)
      case Ok(c) => Ok(Compose(a, c, custom))
  }

  /**
    The access-mode bits of the custom flags are irrelevant: clearing them
    beforehand gives the same flags, so custom flags that differ only there
    open the file the same way.
   */
  lemma CustomAccessBitsIgnored(access: bv32, creation: bv32, custom: bv32)
    ensures Compose(access, creation, custom) == Compose(access, creation, custom & !O_ACCMODE)
  {
  }

  /**
    Custom flags cannot widen the access mode: the access-mode field of the
    result is the one the options resolved to (a read-only open stays
    read-only whatever `custom_flags` says).
   */
  lemma AccessModeFromOptionsOnly(access: bv32, creation: bv32, custom: bv32)
    requires creation & O_ACCMODE == 0
    ensures Compose(access, creation, custom) & O_ACCMODE == access & O_ACCMODE
  {
  }

  /**
    The flags `create` (write-only, create, truncate) and `open` (read-only)
    resolve to on Linux, with custom flags that ask for read-write: the
    access mode is unaffected.
   */
  lemma CreateAndOpenFlags()
    ensures Compose(O_WRONLY, O_CREAT | O_TRUNC, O_RDWR) == O_CLOEXEC | O_WRONLY | O_CREAT | O_TRUNC
    ensures Compose(O_RDONLY, 0, O_RDWR) & O_ACCMODE == O_RDONLY
  {
  }
}

=== FILE: scenarios.dfy ===
/**
  The scenarios of the buffered-file tests: `random_io` (write, read back,
  read across the end of file) for every cluster size, and `write_past_end`
  (a write beyond the end leaves a hole that reads as zeros, storage grows
  by whole clusters, and punching a cluster frees it). Its first write is
  stated for every cluster size the test admits (at least 512); the rest
  for cluster sizes of at least 900, which its later steps need.
 */
module Scenarios {
  import opened Common
  import opened SparseFiles
  import opened SparseFileLemmas
  import opened OpenFlags
  import opened BufferedFiles

  /** The bytes `start as u8, (start + 1) as u8, ...`: `u8` casts truncate. */
  function Counting(start: nat, n: nat): (s: seq<uint8>)
    ensures |s| == n
    ensures forall i | 0 <= i < n :: s[i] as int == (start + i) % 256
  {
    seq(n, i requires 0 <= i < n => ((start + i) % 256) as uint8)
  }

  // ----------------------------------------------------------------- random_io

  /**
    `random_io`: a writer made by `create` and a reader made by `open` on
    the same path are the same file; six bytes written at 0 are reported
    written in full, read back whole, and a read of six bytes at 3 stops at
    the end of file after three.
   */
  lemma RandomIo(cs: nat, dir: Fd, path: Path, opdesc: string, wfd: Fd, rfd: Fd, id: FileId, room: nat)
    requires cs > 0 && room >= 6
    ensures var writer := OpenWithOptions(dir, path, opdesc, OpenOptions(0, 0x1b6),
                                          Ok(O_WRONLY), Ok(O_CREAT | O_TRUNC), Opened(wfd, id)).result;
            var reader := OpenWithOptions(dir, path, opdesc, OpenOptions(0, 0x1b6),
                                          Ok(O_RDONLY), Ok(0), Opened(rfd, id)).result;
            && writer.Ok? && reader.Ok? && IsSame(writer.value, reader.value)
            && var w := Write(writer.value, Empty(cs), [0, 1, 2, 3, 4, 5], 0, room, Done);
               && w.Ok? && w.value.count == 6
               && Read(reader.value, w.value.file, 0, 6, Done) == Ok([0, 1, 2, 3, 4, 5])
               && Read(reader.value, w.value.file, 3, 6, Done) == Ok([3, 4, 5])
  {
    var w := WriteAt(Empty(cs), [0, 1, 2, 3, 4, 5], 0, room);
    ReadAfterWrite(Empty(cs), [0, 1, 2, 3, 4, 5], 0, room);
    var r := ReadAt(w.file, 3, 6);
    assert |r| == 3;
    assert r[0] == ByteAt(w.file, 3 + 0) && r[1] == ByteAt(w.file, 3 + 1) && r[2] == ByteAt(w.file, 3 + 2);
  }

  /**
    `file_open_nonexistent`: `open` asks `openat` for no `O_CREAT`, so a
    missing file is not created, and the OS error comes back wrapped with
    the path and no descriptor.
   */
  lemma FileOpenNonexistent(dir: Fd, path: Path, opdesc: string, errno: int)
    ensures var r := OpenWithOptions(dir, path, opdesc, OpenOptions(0, 0x1b6),
                                     Ok(O_RDONLY), Ok(0), OpenFailed(errno));
            && r.call.Some? && r.call.value.flags & O_CREAT == 0
            && r.result == Err(EnhancedIoError(errno, opdesc, Some(path), None))
  {
  }

  // ------------------------------------------------------------ write_past_end

  /** The state after `write_at([7, ..., 13], 2 * cluster_size)` on a new file. */
  function FirstWrite(cs: nat): (w: Written)
    requires cs > 0
  {
    WriteAt(Empty(cs), Counting(7, 7), 2 * cs, 7)
  }

  /** The state after the further `write_at([513 as u8, ..., 899 as u8], 513)`. */
  function SecondWrite(cs: nat): (w: Written)
    requires cs > 0
  {
    WriteAt(FirstWrite(cs).file, Counting(513, 387), 513, 387)
  }

  /** The state after the further `deallocate(0, cluster_size)`. */
  function Punched(cs: nat): (f: SparseFile)
    requires cs > 0
  {
    Deallocate(SecondWrite(cs).file, 0, cs)
  }

  /** The count, size and allocated clusters after the first `write_past_end` write. */
  lemma FirstWriteShape(cs: nat)
    requires cs >= 512
    ensures FirstWrite(cs).count == 7 && Size(FirstWrite(cs).file) == 2 * cs + 7
    ensures FirstWrite(cs).file.clusters == {2}
  {
    TouchedOneCluster(2 * cs, 2 * cs + 7, 2, cs);
  }

  /** The counts, sizes and allocated clusters of the three `write_past_end` states. */
  lemma ScenarioShape(cs: nat)
    requires cs >= 900
    ensures FirstWrite(cs).count == 7 && Size(FirstWrite(cs).file) == 2 * cs + 7
    ensures FirstWrite(cs).file.clusters == {2}
    ensures SecondWrite(cs).count == 387 && Size(SecondWrite(cs).file) == 2 * cs + 7
    ensures SecondWrite(cs).file.clusters == {0, 2}
    ensures Size(Punched(cs)) == 2 * cs + 7 && Punched(cs).clusters == {2}
  {
    FirstWriteShape(cs);
    TouchedOneCluster(513, 900, 0, cs);
    CoveredSingle(0, cs);
  }

  /**
    The first half of `write_past_end`: an empty file reads nothing; seven
    bytes written two clusters in are reported in full, the size becomes
    `2 * cluster_size + 7`, one cluster is allocated, the first cluster
    reads as zeros, and a 40-byte read at the write returns the 7 bytes.
   */
  lemma WritePastEndGrows(cs: nat)
    requires cs >= 512
    ensures ReadAt(Empty(cs), 0, 6) == []
    ensures FirstWrite(cs).count == 7
    ensures Size(FirstWrite(cs).file) == 2 * cs + 7
    ensures AllocatedSize(FirstWrite(cs).file) == cs
    ensures ReadAt(FirstWrite(cs).file, 0, cs) == Zeros(cs)
    ensures ReadAt(FirstWrite(cs).file, 2 * cs, 40) == Counting(7, 7)
  {
    FirstWriteShape(cs);
    var f := FirstWrite(cs).file;
    forall k: nat | k < cs
      ensures ByteAt(f, k) == 0
    {
    }
    ZeroWindow(f, 0, cs);
    ReadAfterWrite(Empty(cs), Counting(7, 7), 2 * cs, 7);
    assert ReadAt(f, 2 * cs, 40) == ReadAt(f, 2 * cs, 7);
  }

  /**
    The middle of `write_past_end`: 387 bytes written at 513, inside the
    file, are reported in full and keep the size; they dirty the first
    cluster, so two clusters are allocated; the hole before them and the
    one after them up to the last cluster still read as zeros of full
    length, and the written bytes read back.
   */
  lemma WriteIntoHole(cs: nat)
    requires cs >= 900
    ensures SecondWrite(cs).count == 387
    ensures Size(SecondWrite(cs).file) == 2 * cs + 7
    ensures AllocatedSize(SecondWrite(cs).file) == 2 * cs
    ensures ReadAt(SecondWrite(cs).file, 0, 513) == Zeros(513)
    ensures ReadAt(SecondWrite(cs).file, 513, 387) == Counting(513, 387)
    ensures ReadAt(SecondWrite(cs).file, 900, 2 * cs - 900) == Zeros(2 * cs - 900)
  {
    ScenarioShape(cs);
    HoleAroundSecondWrite(cs);
    var f2 := SecondWrite(cs).file;
    ZeroWindow(f2, 0, 513);
    ZeroWindow(f2, 900, 2 * cs - 900);
    ReadAfterWrite(FirstWrite(cs).file, Counting(513, 387), 513, 387);
  }

  /** The bytes of the second state outside both writes are still zero. */
  lemma HoleAroundSecondWrite(cs: nat)
    requires cs >= 900
    ensures forall k: nat | k < 513 || 900 <= k < 2 * cs :: ByteAt(SecondWrite(cs).file, k) == 0
  {
    var f1 := FirstWrite(cs).file;
    var f2 := SecondWrite(cs).file;
    forall k: nat | k < 513 || 900 <= k < 2 * cs
      ensures ByteAt(f2, k) == 0
    {
      assert ByteAt(f2, k) == ByteAt(f1, k);
    }
  }

  /**
    The end of `write_past_end`: punching the first cluster keeps the size,
    leaves one allocated cluster, and the punched range reads as zeros.
   */
  lemma PunchFirstCluster(cs: nat)
    requires cs >= 900
    ensures Size(Punched(cs)) == 2 * cs + 7
    ensures AllocatedSize(Punched(cs)) == cs
    ensures ReadAt(Punched(cs), 0, cs) == Zeros(cs)
  {
    ScenarioShape(cs);
    ZeroWindow(Punched(cs), 0, cs);
  }

  // -------------------------------------------------- the test's own guard

  /** A `u32` subtraction in a debug build: `None` is the overflow panic. */
  function CheckedSubU32(a: nat, b: nat): (r: Option<nat>)
    ensures r.Some? <==> a >= b
    ensures r.Some? ==> r.value + b == a
  {
    if a >= b then Some(a - b) else None
  }

  /** The length `(cluster_size - 900) + cluster_size` the test reads at 900. */
  function TailReadLength(cs: nat): Option<nat> {
    match CheckedSubU32(cs, 900)
    case None => None
    case Some(d) => Some(d + cs)
  }

  /** The cluster sizes the test accepts, as written: `cluster_size >= 512`. */
  predicate GuardAsWritten(cs: nat) { cs >= 512 }

  /** The cluster sizes the test's arithmetic and assertions need. */
  predicate GuardIntended(cs: nat) { cs >= 900 }

  /**
    The guard as written lets a 512-byte cluster through, and then the
    length of the read at 900 underflows.
   */
  lemma GuardAsWrittenAdmitsUnderflow()
    ensures GuardAsWritten(512) && TailReadLength(512) == None
  {
  }

  /**
    Below 900 the guard as written also lets through cluster sizes for which
    the write at 513 spills into the second cluster: with 600-byte clusters
    three clusters end up allocated, not the two the test asserts.
   */
  lemma GuardAsWrittenOverAllocates()
    ensures GuardAsWritten(600) && TailReadLength(600) == None
    ensures SecondWrite(600).file.clusters == {0, 1, 2}
    ensures AllocatedSize(SecondWrite(600).file) == 3 * 600 != 2 * 600
  {
    FirstWriteShape(600);
    TouchedSplit(513, 600, 900, 600);
    TouchedOneCluster(513, 600, 0, 600);
    TouchedOneCluster(600, 900, 1, 600);
  }

  /**
    Under the intended guard the read length is defined, and it is the
    length of the hole `WriteIntoHole` proves reads as zeros.
   */
  lemma GuardIntendedSuffices(cs: nat)
    requires GuardIntended(cs)
    ensures TailReadLength(cs) == Some(2 * cs - 900)
    ensures ReadAt(SecondWrite(cs).file, 900, TailReadLength(cs).value) == Zeros(TailReadLength(cs).value)
  {
    assert TailReadLength(cs) == Some(2 * cs - 900);
    WriteIntoHole(cs);
  }
}

=== FILE: sparse_file.dfy ===
/**
  The contents of one file as buffered reads and writes observe them: a
  logical size, the bytes below it (a hole reads as zero, exactly like a
  written zero), and the set of filesystem clusters that hold storage.
  Every operation is a pure transition on that state.
 */
module SparseFiles {
  import opened Common

  /**
    `content` holds the bytes in `[0, file_size)`, `clusters` the indices of
    the allocated filesystem clusters (cluster `c` spans bytes
    `[c * clusterSize, (c + 1) * clusterSize)`), and `clusterSize` the
    filesystem's cluster size (`Stat::fs_cluster_size`).
   */
  datatype SparseFile = SparseFile(content: seq<uint8>, clusters: set<nat>, clusterSize: nat)

  /** `Stat::file_size`. */
  function Size(f: SparseFile): nat { |f.content| }

  /** `Stat::allocated_file_size`: storage held, in whole clusters. */
  function AllocatedSize(f: SparseFile): nat { |f.clusters| * f.clusterSize }

  /** The byte at position `k`; positions at or past the end read as zero. */
  function ByteAt(f: SparseFile, k: nat): uint8 {
    if k < |f.content| then f.content[k] else 0
  }

  /** The cluster that byte `k` belongs to (`k / cs`, counted out). */
  function ClusterOf(k: nat, cs: nat): nat
    requires cs > 0
    decreases k
  {
    if k < cs then 0 else 1 + ClusterOf(k - cs, cs)
  }

  /**
    The state invariant: clusters have a positive size, and a byte that is
    not zero lies in an allocated cluster (data never lives in a hole).
   */
  predicate Valid(f: SparseFile) {
    && f.clusterSize > 0
    && forall k | 0 <= k < |f.content| && f.content[k] != 0 :: ClusterOf(k, f.clusterSize) in f.clusters
  }

  /** A freshly created (or truncated-on-open) file: no bytes, no storage. */
  function Empty(cs: nat): (f: SparseFile)
    requires cs > 0
    ensures Valid(f) && Size(f) == 0 && AllocatedSize(f) == 0
    ensures forall k: nat :: ByteAt(f, k) == 0
  {
    SparseFile([], {}, cs)
  }

  function Zeros(n: nat): (z: seq<uint8>)
    ensures |z| == n
    ensures forall i | 0 <= i < n :: z[i] == 0
  {
    seq(n, _ => 0)
  }

  /** The clusters that share at least one byte with `[lo, hi)`. */
  function Touched(lo: nat, hi: nat, cs: nat): (r: set<nat>)
    requires cs > 0
    ensures forall k: nat | lo <= k < hi :: ClusterOf(k, cs) in r
  {
    set k: nat | lo <= k < hi :: ClusterOf(k, cs)
  }

  /** The clusters every byte of which lies in `[lo, hi)`. */
  function Covered(lo: nat, hi: nat, cs: nat): (r: set<nat>)
    requires cs > 0
    ensures forall c: nat :: c in r <==> lo <= c * cs && c * cs + cs <= hi
  {
    set c: nat | c <= hi && lo <= c * cs && c * cs + cs <= hi
  }

  /** Byte `k` lies in cluster `ClusterOf(k, cs)`. */
  lemma {:induction false} ClusterBounds(k: nat, cs: nat)
    requires cs > 0
    ensures ClusterOf(k, cs) * cs <= k < ClusterOf(k, cs) * cs + cs
    decreases k
  {
    if k >= cs {
      ClusterBounds(k - cs, cs);
      var c := ClusterOf(k - cs, cs);
      assert (1 + c) * cs == c * cs + cs;
    }
  }

  // ---------------------------------------------------------------- read_at

  /**
    `read_at(pos, size)`: the window of the file the kernel fills. It stops
    at end of file, so it is empty at or past the end, and holes inside the
    file read as zeros of full length.
   */
  function ReadAt(f: SparseFile, pos: nat, size: nat): (r: seq<uint8>)
    ensures pos >= Size(f) ==> |r| == 0
    ensures pos < Size(f) ==> |r| == Min(size, Size(f) - pos)
    ensures forall i | 0 <= i < |r| :: r[i] == ByteAt(f, pos + i)
  {
    if pos >= |f.content| then [] else f.content[pos .. pos + Min(size, |f.content| - pos)]
  }

  // --------------------------------------------------------------- write_at

  /**
    The kernel's effect of writing all of `data` at `pos`: the bytes replace
    the old ones, a gap between the old end and `pos` reads as zero, and
    every cluster the bytes fall in becomes allocated. Storing nothing
    changes nothing.
   */
  function Store(f: SparseFile, data: seq<uint8>, pos: nat): (r: SparseFile)
    requires Valid(f)
    ensures Valid(r) && r.clusterSize == f.clusterSize
    ensures |data| == 0 ==> r == f
    ensures |data| > 0 ==> Size(r) == Max(Size(f), pos + |data|)
    ensures forall i | 0 <= i < |data| :: ByteAt(r, pos + i) == data[i]
    ensures forall k: nat | !(pos <= k < pos + |data|) :: ByteAt(r, k) == ByteAt(f, k)
    ensures r.clusters == f.clusters + Touched(pos, pos + |data|, f.clusterSize)
  {
    if |data| == 0 then f
    else
      var size := Max(|f.content|, pos + |data|);
      var content := seq(size, k requires 0 <= k < size =>
                           if pos <= k < pos + |data| then data[k - pos] else ByteAt(f, k));
      SparseFile(content, f.clusters + Touched(pos, pos + |data|, f.clusterSize), f.clusterSize)
  }

  /** The result of `write_at`: the new state and the count it reports. */
  datatype Written = Written(file: SparseFile, count: nat)

  /**
    `write_at(buf, pos)`. The device takes at most `room` bytes, so the
    reported count may be short of `|buf|`; a short count is a success,
    and exactly the counted prefix of `buf` reaches the file.
   */
  function WriteAt(f: SparseFile, buf: seq<uint8>, pos: nat, room: nat): (r: Written)
    requires Valid(f)
    ensures Valid(r.file) && r.file.clusterSize == f.clusterSize
    ensures r.count <= |buf| && r.count <= room
    ensures r.count == |buf| || r.count == room
    ensures r.count == 0 ==> r.file == f
    ensures r.count > 0 ==> Size(r.file) == Max(Size(f), pos + r.count)
    ensures forall i | 0 <= i < r.count :: ByteAt(r.file, pos + i) == buf[i]
    ensures forall k: nat | !(pos <= k < pos + r.count) :: ByteAt(r.file, k) == ByteAt(f, k)
    ensures r.file.clusters == f.clusters + Touched(pos, pos + r.count, f.clusterSize)
  {
    var n := Min(|buf|, room);
    Written(Store(f, buf[..n], pos), n)
  }

  // ------------------------------------------------------------- deallocate

  /**
    `deallocate(offset, size)` (a punched hole): the range reads as zero,
    clusters wholly inside it are unmapped, partly covered clusters stay
    allocated, and the size does not change.
   */
  function Deallocate(f: SparseFile, offset: nat, len: nat): (r: SparseFile)
    requires Valid(f)
    ensures Valid(r) && r.clusterSize == f.clusterSize
    ensures Size(r) == Size(f)
    ensures forall k: nat | offset <= k < offset + len :: ByteAt(r, k) == 0
    ensures forall k: nat | !(offset <= k < offset + len) :: ByteAt(r, k) == ByteAt(f, k)
    ensures r.clusters == f.clusters - Covered(offset, offset + len, f.clusterSize)
  {
    var cs := f.clusterSize;
    var content := seq(|f.content|, i requires 0 <= i < |f.content| =>
                         if offset <= i < offset + len then 0 else f.content[i]);
    var r := SparseFile(content, f.clusters - Covered(offset, offset + len, cs), cs);
    assert Valid(r) by {
      forall k | 0 <= k < |content| && content[k] != 0
        ensures ClusterOf(k, cs) in r.clusters
      {
        ClusterBounds(k, cs);
      }
    }
    r
  }

  // ----------------------------------------------------------- pre_allocate

  /**
    `pre_allocate(size, keep_size)`: storage for `[0, size)` is reserved and
    no byte anyone can read changes. Without `keep_size` the file grows to
    `size` (fallocate never shrinks a file), the new part reading as zero;
    with it the size stays.
   */
  function PreAllocate(f: SparseFile, size: nat, keepSize: bool): (r: SparseFile)
    requires Valid(f)
    ensures Valid(r) && r.clusterSize == f.clusterSize
    ensures keepSize ==> Size(r) == Size(f)
    ensures !keepSize ==> Size(r) == Max(Size(f), size)
    ensures forall k: nat :: ByteAt(r, k) == ByteAt(f, k)
    ensures r.clusters == f.clusters + Touched(0, size, f.clusterSize)
  {
    var content := if keepSize || size <= |f.content| then f.content
                   else f.content + Zeros(size - |f.content|);
    SparseFile(content, f.clusters + Touched(0, size, f.clusterSize), f.clusterSize)
  }

  // --------------------------------------------------------------- truncate

  /**
    `truncate(size)`: the file has exactly `size` bytes; the prefix both
    sizes share is kept, an extension reads as zero, and shrinking frees
    the clusters that start at or past the new end.
   */
  function Truncate(f: SparseFile, size: nat): (r: SparseFile)
    requires Valid(f)
    ensures Valid(r) && r.clusterSize == f.clusterSize
    ensures Size(r) == size
    ensures forall k: nat | k < size :: ByteAt(r, k) == ByteAt(f, k)
    ensures forall k: nat | k >= size :: ByteAt(r, k) == 0
    ensures size >= Size(f) ==> r.clusters == f.clusters
    ensures size < Size(f) ==> forall c :: c in r.clusters <==> c in f.clusters && c * f.clusterSize < size
  {
    var cs := f.clusterSize;
    if size >= |f.content| then
      SparseFile(f.content + Zeros(size - |f.content|), f.clusters, cs)
    else
      var r := SparseFile(f.content[..size], (set c | c in f.clusters && c * cs < size), cs);
      assert Valid(r) by {
        forall k | 0 <= k < size && r.content[k] != 0
          ensures ClusterOf(k, cs) in r.clusters
        {
          ClusterBounds(k, cs);
        }
      }
      r
  }

  // ------------------------------------------------------------------ traces

  /** One mutating call on a file. */
  datatype Op =
    | WriteOp(buf: seq<uint8>, pos: nat, room: nat)
    | Punch(offset: nat, len: nat)
    | Reserve(size: nat, keepSize: bool)
    | SetSize(size: nat)

  function Apply(f: SparseFile, op: Op): (r: SparseFile)
    requires Valid(f)
    ensures Valid(r) && r.clusterSize == f.clusterSize
  {
    match op
    case WriteOp(buf, pos, room) => WriteAt(f, buf, pos, room).file
    case Punch(offset, len) => Deallocate(f, offset, len)
    case Reserve(size, keepSize) => PreAllocate(f, size, keepSize)
    case SetSize(size) => Truncate(f, size)
  }

  /** The state after the calls in `ops`, in order. */
  function Run(f: SparseFile, ops: seq<Op>): (r: SparseFile)
    requires Valid(f)
    ensures Valid(r) && r.clusterSize == f.clusterSize
    decreases |ops|
  {
    if ops == [] then f else Run(Apply(f, ops[0]), ops[1..])
  }

  /** Whether `op` stores a byte at position `k`. */
  predicate Stores(op: Op, k: nat) {
    op.WriteOp? && op.pos <= k < op.pos + Min(|op.buf|, op.room)
  }
}

=== FILE: sparse_file_lemmas.dfy ===
/**
  Properties that relate several operations on a `SparseFile`: reads after
  writes, resuming a short write, idempotence, storage accounting, and what
  a sequence of operations leaves in bytes nobody wrote.
 */
module SparseFileLemmas {
  import opened Common
  import opened SparseFiles

  // ------------------------------------------------------------ extensionality

  /** Two states that agree on the size and on every byte hold the same content. */
  lemma {:induction false} SameBytes(f: SparseFile, g: SparseFile)
    requires Size(f) == Size(g)
    requires forall k: nat :: ByteAt(f, k) == ByteAt(g, k)
    ensures f.content == g.content
  {
    forall i | 0 <= i < |f.content|
      ensures f.content[i] == g.content[i]
    {
      assert ByteAt(f, i) == ByteAt(g, i);
    }
  }

  /** A window inside the file over bytes that all read zero is a run of zeros. */
  lemma ZeroWindow(f: SparseFile, pos: nat, size: nat)
    requires pos + size <= Size(f)
    requires forall k: nat | pos <= k < pos + size :: ByteAt(f, k) == 0
    ensures ReadAt(f, pos, size) == Zeros(size)
  {
    var r := ReadAt(f, pos, size);
    assert |r| == size;
    forall i | 0 <= i < size
      ensures r[i] == 0
    {
      assert ByteAt(f, pos + i) == 0;
    }
  }

  /** A subset never has more elements than its superset. */
  lemma {:induction false} SubsetCardinality(a: set<nat>, b: set<nat>)
    requires a <= b
    ensures |a| <= |b|
    decreases |a|
  {
    if a != {} {
      var x :| x in a;
      SubsetCardinality(a - {x}, b - {x});
    }
  }

  lemma {:induction false} ScaleMonotone(a: nat, b: nat, cs: nat)
    requires a <= b
    ensures a * cs <= b * cs
  {
    var d := b - a;
    assert b * cs == a * cs + d * cs;
  }

  /** Every byte of cluster `c` belongs to cluster `c`. */
  lemma {:induction false} ClusterOfWithin(k: nat, c: nat, cs: nat)
    requires cs > 0
    requires c * cs <= k < c * cs + cs
    ensures ClusterOf(k, cs) == c
    decreases c
  {
    if c > 0 {
      assert (c - 1) * cs == c * cs - cs;
      ClusterOfWithin(k - cs, c - 1, cs);
    }
  }

  /** A non-empty range inside one cluster touches that cluster only. */
  lemma TouchedOneCluster(lo: nat, hi: nat, c: nat, cs: nat)
    requires cs > 0
    requires c * cs <= lo < hi <= c * cs + cs
    ensures Touched(lo, hi, cs) == {c}
  {
    forall k: nat | lo <= k < hi
      ensures ClusterOf(k, cs) == c
    {
      ClusterOfWithin(k, c, cs);
    }
    assert ClusterOf(lo, cs) in Touched(lo, hi, cs);
  }

  // ------------------------------------------------------ read after write

  /**
    What `write_at` reports written reads back unchanged, and a write the
    device accepts in full reads back as the whole buffer.
   */
  lemma ReadAfterWrite(f: SparseFile, buf: seq<uint8>, pos: nat, room: nat)
    requires Valid(f)
    ensures var w := WriteAt(f, buf, pos, room);
            ReadAt(w.file, pos, w.count) == buf[..w.count]
    ensures room >= |buf| ==>
              var w := WriteAt(f, buf, pos, room);
              w.count == |buf| && ReadAt(w.file, pos, |buf|) == buf
  {
    var w := WriteAt(f, buf, pos, room);
    var r := ReadAt(w.file, pos, w.count);
    assert |r| == w.count;
    assert forall i | 0 <= i < |r| :: r[i] == buf[i];
  }

  /**
    A write inside the file keeps the size, and a write past the end grows
    the file to the end of the written bytes.
   */
  lemma WriteSize(f: SparseFile, buf: seq<uint8>, pos: nat, room: nat)
    requires Valid(f)
    ensures var w := WriteAt(f, buf, pos, room);
            && (pos + w.count <= Size(f) ==> Size(w.file) == Size(f))
            && (w.count > 0 && pos + w.count > Size(f) ==> Size(w.file) == pos + w.count)
  {
  }

  /** The byte a write leaves at position `k`. */
  lemma WrittenByte(f: SparseFile, buf: seq<uint8>, pos: nat, room: nat, k: nat)
    requires Valid(f)
    ensures var w := WriteAt(f, buf, pos, room);
            ByteAt(w.file, k) == if pos <= k < pos + w.count then buf[k - pos] else ByteAt(f, k)
  {
    var w := WriteAt(f, buf, pos, room);
    if pos <= k < pos + w.count {
      assert ByteAt(w.file, pos + (k - pos)) == buf[k - pos];
    }
  }

  /**
    Resuming a short write with the rest of the buffer leaves the file
    exactly as one write of the whole buffer would: whatever count `n` the
    first write reported, the second one stores the remaining bytes, so the
    loop callers write to get all bytes out is sound.
   */
  lemma {:induction false} ShortWriteThenResume(f: SparseFile, buf: seq<uint8>, pos: nat, n: nat)
    requires Valid(f)
    requires n <= |buf|
    ensures var w1 := WriteAt(f, buf, pos, n);
            var w2 := WriteAt(w1.file, buf[n..], pos + n, |buf| - n);
            && w1.count == n
            && w2.count == |buf| - n
            && w2.file == WriteAt(f, buf, pos, |buf|).file
  {
    if n == 0 {
      assert buf[0..] == buf;
    } else if n < |buf| {
      ResumeCompletes(f, buf, pos, n);
    }
  }

  /** A write depends on the room only through the count it reports. */
  lemma SameCountSameWrite(f: SparseFile, buf: seq<uint8>, pos: nat, room: nat)
    requires Valid(f)
    ensures WriteAt(f, buf, pos, room) == WriteAt(f, buf, pos, Min(|buf|, room))
  {
  }

  /** The case of `ShortWriteThenResume` where the first write stored `n` bytes, `0 < n < |buf|`. */
  lemma {:induction false} ResumeCompletes(f: SparseFile, buf: seq<uint8>, pos: nat, n: nat)
    requires Valid(f)
    requires 0 < n < |buf|
    ensures var w1 := WriteAt(f, buf, pos, n);
            WriteAt(w1.file, buf[n..], pos + n, |buf| - n).file == WriteAt(f, buf, pos, |buf|).file
  {
    var w1 := WriteAt(f, buf, pos, n);
    var w2 := WriteAt(w1.file, buf[n..], pos + n, |buf| - n);
    var full := WriteAt(f, buf, pos, |buf|);
    forall k: nat
      ensures ByteAt(w2.file, k) == ByteAt(full.file, k)
    {
      ResumeByte(f, buf, pos, n, k);
    }
    SameBytes(w2.file, full.file);
    TouchedSplit(pos, pos + n, pos + |buf|, f.clusterSize);
  }

  /** One byte of `ResumeCompletes`. */
  lemma ResumeByte(f: SparseFile, buf: seq<uint8>, pos: nat, n: nat, k: nat)
    requires Valid(f)
    requires 0 < n < |buf|
    ensures var w1 := WriteAt(f, buf, pos, n);
            ByteAt(WriteAt(w1.file, buf[n..], pos + n, |buf| - n).file, k)
              == ByteAt(WriteAt(f, buf, pos, |buf|).file, k)
  {
    var w1 := WriteAt(f, buf, pos, n);
    var w2 := WriteAt(w1.file, buf[n..], pos + n, |buf| - n);
    var full := WriteAt(f, buf, pos, |buf|);
    WrittenByte(f, buf, pos, |buf|, k);
    WrittenByte(w1.file, buf[n..], pos + n, |buf| - n, k);
    if pos + n <= k < pos + |buf| {
      assert ByteAt(w2.file, k) == buf[n..][k - pos - n] == buf[k - pos];
    } else {
      WrittenByte(f, buf, pos, n, k);
    }
  }

  /** The clusters touched by two adjacent ranges are those of their union. */
  lemma TouchedSplit(lo: nat, mid: nat, hi: nat, cs: nat)
    requires cs > 0 && lo <= mid <= hi
    ensures Touched(lo, mid, cs) + Touched(mid, hi, cs) == Touched(lo, hi, cs)
  {
    forall c | c in Touched(lo, hi, cs)
      ensures c in Touched(lo, mid, cs) + Touched(mid, hi, cs)
    {
      var k: nat :| lo <= k < hi && ClusterOf(k, cs) == c;
      if k < mid {
        assert ClusterOf(k, cs) in Touched(lo, mid, cs);
      } else {
        assert ClusterOf(k, cs) in Touched(mid, hi, cs);
      }
    }
  }

  /** Writing the same buffer at the same place twice is the same as once. */
  lemma {:induction false} WriteIdempotent(f: SparseFile, buf: seq<uint8>, pos: nat, room: nat)
    requires Valid(f)
    ensures var w := WriteAt(f, buf, pos, room);
            WriteAt(w.file, buf, pos, room) == w
  {
    var w := WriteAt(f, buf, pos, room);
    var w2 := WriteAt(w.file, buf, pos, room);
    if w.count > 0 {
      forall k: nat
        ensures ByteAt(w2.file, k) == ByteAt(w.file, k)
      {
        if pos <= k < pos + w.count {
          assert ByteAt(w2.file, pos + (k - pos)) == buf[k - pos];
          assert ByteAt(w.file, pos + (k - pos)) == buf[k - pos];
        }
      }
      SameBytes(w2.file, w.file);
    }
  }

  /**
    A write never frees storage, and what it adds is whole clusters: the
    ones the written bytes fall in.
   */
  lemma {:induction false} WriteAllocates(f: SparseFile, buf: seq<uint8>, pos: nat, room: nat)
    requires Valid(f)
    ensures var w := WriteAt(f, buf, pos, room);
            AllocatedSize(w.file) == AllocatedSize(f) + |w.file.clusters - f.clusters| * f.clusterSize
  {
    var w := WriteAt(f, buf, pos, room);
    GrowCardinality(f.clusters, w.file.clusters);
    ScaleSum(|f.clusters|, |w.file.clusters - f.clusters|, f.clusterSize);
  }

  /** A superset has the subset's elements plus the ones it adds. */
  lemma GrowCardinality(a: set<nat>, b: set<nat>)
    requires a <= b
    ensures |b| == |a| + |b - a|
  {
    assert b == a + (b - a);
  }

  lemma ScaleSum(x: nat, d: nat, cs: nat)
    ensures (x + d) * cs == x * cs + d * cs
  {
  }

  // --------------------------------------------------------------- deallocate

  /**
    After `deallocate(offset, len)` a read inside the range returns as many
    bytes as before, all of them zero.
   */
  lemma DeallocatedRangeReadsZero(f: SparseFile, offset: nat, len: nat, pos: nat, size: nat)
    requires Valid(f)
    requires offset <= pos && pos + size <= offset + len
    ensures var r := ReadAt(Deallocate(f, offset, len), pos, size);
            && |r| == |ReadAt(f, pos, size)|
            && forall i | 0 <= i < |r| :: r[i] == 0
  {
  }

  /** Punching a hole never adds storage, and punching it again changes nothing. */
  lemma {:induction false} DeallocateShrinksAndIsIdempotent(f: SparseFile, offset: nat, len: nat)
    requires Valid(f)
    ensures AllocatedSize(Deallocate(f, offset, len)) <= AllocatedSize(f)
    ensures Deallocate(Deallocate(f, offset, len), offset, len) == Deallocate(f, offset, len)
  {
    var g := Deallocate(f, offset, len);
    SubsetCardinality(g.clusters, f.clusters);
    ScaleMonotone(|g.clusters|, |f.clusters|, f.clusterSize);
    var h := Deallocate(g, offset, len);
    SameBytes(h, g);
  }

  /**
    Punching exactly one allocated cluster frees exactly one cluster of
    storage.
   */
  lemma {:induction false} DeallocateOneCluster(f: SparseFile, c: nat)
    requires Valid(f) && c in f.clusters
    ensures AllocatedSize(Deallocate(f, c * f.clusterSize, f.clusterSize)) + f.clusterSize == AllocatedSize(f)
  {
    var cs := f.clusterSize;
    var g := Deallocate(f, c * cs, cs);
    CoveredSingle(c, cs);
    assert g.clusters == f.clusters - {c};
    assert (|f.clusters| - 1) * cs == |f.clusters| * cs - cs;
  }

  /** The range of one cluster covers that cluster and no other. */
  lemma CoveredSingle(c: nat, cs: nat)
    requires cs > 0
    ensures Covered(c * cs, c * cs + cs, cs) == {c}
  {
    var lo, hi := c * cs, c * cs + cs;
    assert forall d: nat :: d in Covered(lo, hi, cs) <==> lo <= d * cs && d * cs + cs <= hi;
  }

  // ------------------------------------------------------------- pre_allocate

  /**
    `pre_allocate` with `keep_size` is invisible to reads; without it, the
    range from the old end to `size` reads as zeros of full length.
   */
  lemma PreAllocateReads(f: SparseFile, size: nat, keepSize: bool, pos: nat, len: nat)
    requires Valid(f)
    ensures keepSize ==> ReadAt(PreAllocate(f, size, true), pos, len) == ReadAt(f, pos, len)
    ensures !keepSize && Size(f) <= pos && pos + len <= size ==>
              ReadAt(PreAllocate(f, size, false), pos, len) == Zeros(len)
  {
    if keepSize {
      var g := PreAllocate(f, size, true);
      SameBytes(g, f);
    }
  }

  /** Reserving the same storage twice is the same as once. */
  lemma {:induction false} PreAllocateIdempotent(f: SparseFile, size: nat, keepSize: bool)
    requires Valid(f)
    ensures var g := PreAllocate(f, size, keepSize);
            PreAllocate(g, size, keepSize) == g
  {
    var g := PreAllocate(f, size, keepSize);
    var h := PreAllocate(g, size, keepSize);
    SameBytes(h, g);
  }

  // ----------------------------------------------------------------- truncate

  /**
    Shrinking then growing back does not resurrect the cut bytes: they read
    as zero, and truncating twice to the same size is truncating once.
   */
  lemma {:induction false} TruncateCutsAndIsIdempotent(f: SparseFile, cut: nat, size: nat)
    requires Valid(f)
    ensures forall k: nat | cut <= k :: ByteAt(Truncate(Truncate(f, cut), size), k) == 0
    ensures Truncate(Truncate(f, size), size) == Truncate(f, size)
  {
    var g := Truncate(f, size);
    var h := Truncate(g, size);
    SameBytes(h, g);
  }

  // ------------------------------------------------------------------- traces

  /**
    A position that reads zero and that no later call writes keeps reading
    zero, whatever holes, reservations and truncations happen meanwhile.
   */
  lemma {:induction false} UnwrittenStaysZero(f: SparseFile, ops: seq<Op>, k: nat)
    requires Valid(f) && ByteAt(f, k) == 0
    requires forall i | 0 <= i < |ops| :: !Stores(ops[i], k)
    ensures ByteAt(Run(f, ops), k) == 0
    decreases |ops|
  {
    if ops != [] {
      assert !Stores(ops[0], k);
      var g := Apply(f, ops[0]);
      assert ByteAt(g, k) == 0;
      assert forall i | 0 <= i < |ops[1..]| :: ops[1..][i] == ops[i + 1];
      UnwrittenStaysZero(g, ops[1..], k);
    }
  }

  /**
    In a file built from an empty one, a read of a range inside the file
    that no call wrote returns the full range, all zeros.
   */
  lemma NeverWrittenReadsZero(cs: nat, ops: seq<Op>, pos: nat, size: nat)
    requires cs > 0
    requires pos + size <= Size(Run(Empty(cs), ops))
    requires forall i, k | 0 <= i < |ops| && pos <= k < pos + size :: !Stores(ops[i], k)
    ensures ReadAt(Run(Empty(cs), ops), pos, size) == Zeros(size)
  {
    var g := Run(Empty(cs), ops);
    forall k: nat | pos <= k < pos + size
      ensures ByteAt(g, k) == 0
    {
      UnwrittenStaysZero(Empty(cs), ops, k);
    }
    ZeroWindow(g, pos, size);
  }
}
